=== FILE: README.md ===
# Event-driven notification pipeline: a Dafny model

The pipeline has two stages. An HTTP publisher (`POST /activity`) validates a
user-activity event `{userId, eventType, payload}` and publishes it to a
Pub/Sub topic. A Pub/Sub-triggered consumer (`processUserActivityEvent`)
decodes each delivery, skips event ids it has already stored, and otherwise
stores one MongoDB notification record with status `"processed"`. Pub/Sub
delivers at least once, so the consumer is written to be idempotent on the
Pub/Sub `eventId`.

The model has four modules:

- `JsValue` (`js_value.dfy`): parsed JSON values, with `Absent` standing for
  JavaScript's `undefined`. It also holds the JavaScript coercions the code
  relies on: truthiness, `typeof`, property reads and destructuring, and the
  string conversion a template literal performs (numbers in decimal, arrays
  joined with `","`, objects as `"[object Object]"`, and the TypeError raised
  by an object whose own `toString` field hides the prototype's).
- `EventRoutes` (`event_routes.dfy`): the route handler as a pure function
  `HandleActivity`. It returns the HTTP response together with the list of
  publish calls made. The Pub/Sub client is a function parameter `publish`.
  The configured topic is an optional string parameter.
- `ActivityProcessor` (`activity_processor.dfy`): the consumer as a state
  transition `Process` over `State(connected, store)`. `connected` is the
  module-level cached connection. `store` is the notification collection, a
  map keyed by the unique `eventId`. The result is `Ok` (resolve, the message
  is acknowledged) or `Err` (rethrow, Pub/Sub redelivers). Base64 plus
  `JSON.parse`, `mongoose.connect`, `findOne`, `save` and the clock are the
  parameters in `Env`.
- `Pipeline` (`pipeline.dfy`): runs of (re)deliveries processed one at a time.
  It proves the exactly-once effect of at-least-once delivery. It also holds
  the end-to-end link: what the publisher accepted is what the consumer
  stores.

Behaviours of the code that are easy to miss:

- The route's comment asks only for a string `userId`/`eventType`
  (api-publisher/src/routes/event_routes.js:13), but its guard
  `!userId || ...` also rejects the empty string.
- A duplicate-key error on save is rethrown like every other error
  (cloud-function-processor/index.js:86-89). One call at a time it never
  arises, because the lookup comes first.
- Absent or empty `event.data` becomes `{}`. That has no `payload`, so for an
  unseen event id the read `payload.timestamp` throws after the connection
  and the lookup. For a stored event id the call is skipped and succeeds.
- After a failed call the collection is unchanged, but a connection made
  during that call stays cached.
- The consumer's test for a rethrown save error
  (cloud-function-processor/tests/cloud_function.test.js:129-145) delivers
  `{}`. By the code, that call throws at `payload.timestamp` before `save` is
  reached. The model follows the code.

## Model

| member | source | states |
|---|---|---|
| JsValue.ReadAfterWrite | api-publisher/src/routes/event_routes.js:10 | A destructured field of an object reads back the value last written under that name. Writing one field leaves the reads of the other fields unchanged |
| JsValue.NatToString | cloud-function-processor/index.js:69 | A number placed in the notification text is canonical decimal: non-empty, digits only, no leading zero |
| JsValue.NatToStringRoundTrip | cloud-function-processor/index.js:69 | Reading the decimal text of a natural number gives the number back |
| JsValue.IntToString | cloud-function-processor/index.js:69 | An integer's text starts with '-' exactly when it is negative and is otherwise digits, with no leading zero after the sign (7 is "7", -7 is "-7") |
| JsValue.IntToStringRoundTrip | cloud-function-processor/index.js:69 | Parsing the text of any integer gives that integer back |
| JsValue.IntToStringInjective | cloud-function-processor/index.js:69 | Integer rendering is injective: two integers with the same decimal text are equal |
| JsValue.Stringify | cloud-function-processor/index.js:69 | A template literal keeps a string as is and renders a number as its canonical decimal text, which reads back to the number. `undefined`, `null` and the booleans become "undefined", "null", "true" and "false". It fails on an object exactly when the object has its own `toString` field, and otherwise gives "[object Object]". Other non-array values always convert |
| EventRoutes.TopicName | api-publisher/src/routes/event_routes.js:6 | The topic is the configured value when that is non-empty, and "user-activity-events" when it is unset or empty; never empty |
| EventRoutes.NotAString | api-publisher/src/routes/event_routes.js:14 | The guard `!v \|\| typeof v !== "string"` rejects exactly the values that are not non-empty strings |
| EventRoutes.NotAnObject | api-publisher/src/routes/event_routes.js:24 | The guard `!v \|\| typeof v !== "object" \|\| Array.isArray(v)` rejects exactly the values that are not JSON objects (`{}` passes) |
| EventRoutes.HandleActivity | api-publisher/src/routes/event_routes.js:9-49 | The code is 202, 400 or 500. It is 400 exactly when nothing is published. At most one publish, always to the configured topic. 500 carries the fixed message and 202 the "accepted" body |
| EventRoutes.HandleActivityMeaning | api-publisher/src/routes/event_routes.js:14-48 | A malformed body gets the error for its FIRST malformed field (order userId, eventType, payload) and no publish. A well-formed body is published exactly once as `{userId, eventType, payload}`. The answer is 202 or 500 as the publish succeeds or fails |
| EventRoutes.ErrorMentionsField | api-publisher/src/routes/event_routes.js:17-27 | Each validation error text contains the name of the field it rejects |
| EventRoutes.UserIdRejected | api-publisher/src/routes/event_routes.js:14-18 | A missing, falsy or non-string userId (including "") gives 400 with an error mentioning "userId", and nothing is published |
| EventRoutes.EventTypeRejected | api-publisher/src/routes/event_routes.js:19-23 | Once userId passes, a missing, falsy or non-string eventType gives 400 with an error mentioning "eventType", and nothing is published |
| EventRoutes.PayloadRejected | api-publisher/src/routes/event_routes.js:24-28 | Once both ids pass, the answer is 400 exactly when the payload is not an object (missing, null, string, array...). The error mentions "payload" and nothing is published |
| EventRoutes.EventToJsonFields | api-publisher/src/routes/event_routes.js:10 | Destructuring the body a client sends for an event gives back the event's userId, eventType and payload |
| EventRoutes.EventToJsonRoundTrip | api-publisher/src/routes/event_routes.js:10-34 | The body a client sends for an event with non-empty ids is published as exactly that event. An empty id is refused |
| EventRoutes.PublishFailureIs500 | api-publisher/src/routes/event_routes.js:42-48 | A failed publish of a valid event gives 500 with "Internal Server Error. Could not publish event.", after exactly one publish attempt (no retry) |
| EventRoutes.AcceptedExample | api-publisher/src/routes/event_routes.js:32-41 | `{userId:"user_123", eventType:"click", payload:{page:"home"}}` gives 202 "accepted" and one publish to "user-activity-events" |
| ActivityProcessor.ConnectDB | cloud-function-processor/index.js:22-36 | A cached connection is reused and cannot fail. Otherwise the call succeeds, and fills the cache, exactly when the connection attempt succeeds |
| ActivityProcessor.ConnectionIsCached | cloud-function-processor/index.js:22-23 | After one successful `connectDB`, any later call succeeds whatever a new attempt would do |
| ActivityProcessor.NotificationMessage | cloud-function-processor/index.js:69 | For string ids the message is exactly "Simulating push notification for user [" + userId + "] about event [" + eventType + "]". For any ids the message is that sentence built from the template-literal texts of the two ids, e.g. "user [undefined]" for an absent id. It fails exactly when one id cannot be converted to a string |
| ActivityProcessor.NumericUserIdsGiveDistinctMessages | cloud-function-processor/index.js:69 | Two numeric user ids with the same event type give the same notification text only when they are equal |
| ActivityProcessor.UpToBracketRecovers | cloud-function-processor/index.js:69 | A user id without "]" is read back from the notification text as the part before the "]" that closes it |
| ActivityProcessor.BuildRecord | cloud-function-processor/index.js:73-81 | The record carries the event id, the decoded userId/eventType/payload, status "processed" and the message. The timestamp is the payload's `timestamp` when that is truthy, and the clock otherwise |
| ActivityProcessor.Save | cloud-function-processor/index.js:6 | Save succeeds exactly when eventId is non-empty (required), not already stored (unique) and the write succeeds. It then adds exactly that one record |
| ActivityProcessor.Persist | cloud-function-processor/index.js:69-83 | Building and saving the record either fails or adds one record under the delivered id, which was absent before, and changes nothing else |
| ActivityProcessor.Process | cloud-function-processor/index.js:44-91 | A failed call leaves the collection unchanged. A call adds at most the delivered id and never overwrites. A cached connection stays cached. A connection made once the message has decoded to a non-null value stays cached even when the lookup or the save then throws. A duplicate-key failure never occurs |
| ActivityProcessor.StatusTransitions | cloud-function-processor/index.js:62-83 | Per event id the only transition is unseen to processed, for the delivered id only. Processed is terminal and its record never changes |
| ActivityProcessor.RecordsForAtMostOne | cloud-function-processor/index.js:6 | In a well-formed collection an event id has at most one record, and exactly one once stored |
| ActivityProcessor.ProcessPreservesWellFormed | cloud-function-processor/index.js:73-83 | Every call keeps each record under its own non-empty eventId with status "processed" |
| ActivityProcessor.DecodeFailureChangesNothing | cloud-function-processor/index.js:54 | A message that fails to parse makes the call throw with state (connection and collection) unchanged |
| ActivityProcessor.ConnectionFailure | cloud-function-processor/index.js:57 | The call fails on the connection exactly when the message decodes to a non-null value, nothing is cached and connecting fails. The state is then unchanged |
| ActivityProcessor.AlreadyProcessedIsSkipped | cloud-function-processor/index.js:62-66 | For a stored event id the collection never changes. The call succeeds exactly when decoding, destructuring, connecting and the lookup succeed |
| ActivityProcessor.FirstDeliveryStoresRecord | cloud-function-processor/index.js:73-83 | A successful first delivery adds exactly the key eventId: processed, with the decoded userId/eventType/payload and the notification text. Every other key keeps its record |
| ActivityProcessor.StoredMessageText | cloud-function-processor/index.js:69 | With string ids the stored message is exactly the simulated push-notification text |
| ActivityProcessor.FirstDeliverySucceedsWhen | cloud-function-processor/index.js:53-90 | A first delivery succeeds exactly when decoding, destructuring, connecting, the lookup, building the record and saving all succeed. Every failure is rethrown |
| ActivityProcessor.AbsentDataNeverWrites | cloud-function-processor/index.js:47-49 | Absent or empty data is `{}`. For an unseen event id the call throws (no payload to read a timestamp from) and writes nothing |
| ActivityProcessor.RecordTimestamp | cloud-function-processor/index.js:78 | The record keeps the payload's timestamp when it is truthy, else the clock's time |
| ActivityProcessor.RedeliveryIsNoOp | cloud-function-processor/index.js:62-66 | After a successful delivery, redelivering the same message under the same id succeeds and changes nothing, whatever connecting or saving would now do |
| ActivityProcessor.TwiceLeavesOneRecord | cloud-function-processor/index.js:62-66 | Processing the same delivery twice leaves exactly one record for its event id, with status "processed". This holds whatever the second attempt's decoder, connection, lookup or save does |
| Pipeline.RunDeliveries | cloud-function-processor/index.js:62-83 | Over any run of deliveries, stored records are never changed or removed. Every new key is the event id of some delivery in the run |
| Pipeline.AcknowledgedIsStored | cloud-function-processor/index.js:62-86 | Every acknowledged delivery's event id is stored at the end of the run, whatever came before or after |
| Pipeline.RunPreservesWellFormed | cloud-function-processor/index.js:6 | The collection stays keyed by unique, non-empty event ids of processed records over any run |
| Pipeline.AtMostOneRecordPerEventId | cloud-function-processor/index.js:62-66 | However often an event is redelivered and whichever attempts fail, its event id never ends a run with more than one record |
| Pipeline.ExactlyOnceEffect | cloud-function-processor/index.js:62-83 | Once any delivery of an event id is acknowledged, the run ends with exactly one record for that id, whatever else was delivered or failed |
| Pipeline.PublishedEventIsStored | api-publisher/src/routes/event_routes.js:32-34 | An accepted event, read back by the consumer on any successful first delivery (whatever the collaborators did to make it succeed), is stored with the published userId, eventType and payload, status "processed", and the notification text |

## Left out

- Transport and I/O: the Express server, the health route, body parsing, the
  HTML-stripping middleware and the port. The route gets the already-parsed
  body, and the model requires it is not `null`/`undefined`: the JSON body
  parser only hands over objects or arrays.
- The Pub/Sub client wrapper (topic exists/create/publish): it is the
  opaque `publish` parameter, succeeding with a message id or failing.
- Base64 decoding and `JSON.parse`: one abstract partial decoder. Absent or
  empty data is taken to parse as the empty object, without calling the
  decoder.
- `mongoose.connect`, `findOne` and `save`: boolean outcomes in `Env`. The
  connection URI and its environment default are not modelled.
- Mongoose casting of `userId`/`eventType` to String and of `timestamp` to
  Date: the record keeps the raw JSON values. A cast failure falls under the
  abstract `save` failure.
- Pipeline.PublishedEventIsStored: does not promise that an accepted event
  can be stored at all. An accepted event whose `payload.timestamp` is truthy
  but not a date (e.g. `"soon"`) fails the Date cast on every save, so every
  redelivery throws. The lemma is conditioned on a successful delivery.
- Floating point: JSON numbers are integers. Non-integral numbers,
  precision loss beyond 2^53 and exponent notation from 1e21 up are not
  modelled.
- `Date.now`/`new Date()`: a single opaque clock value `now` per call.
- The lookup-then-insert race between concurrent deliveries of the same id:
  calls are processed one at a time. The unique index is modelled as a save
  failure, so a racing insert would surface as a rethrown `DuplicateKey`.
- `findOne` with an `undefined` event id, which Mongoose would turn into an
  unfiltered query: Pub/Sub always supplies the id, so it is a string here.
- Console logging, including the "already processed" and "simulating" log
  lines, and environment variables other than the topic.
- JsValue.Stringify: for arrays it promises nothing beyond the join it
  computes. Every other kind of value has contract clauses.

=== FILE: activity_processor.dfy ===
/** The Pub/Sub-triggered consumer `processUserActivityEvent`: decode the
    message, connect (reusing a cached connection), skip an event id that is
    already stored, otherwise build a notification record and save it; every
    failure is rethrown. The state is the cached-connection flag and the
    notification collection, keyed by its unique `eventId`. Decoding,
    connecting, querying, saving and the clock are parameters. */
module ActivityProcessor {
  import opened JsValue

  /** The `status` text stored with every record: the record of an event id
      in the `Processed` state of `Status`. */
  const ProcessedText: string := "processed"

  /** Where a record's `timestamp` came from: the payload's own truthy
      `timestamp`, or the clock when the payload has none. */
  datatype Stamp = FromPayload(value: Json) | Clock(at: int)

  /** A stored notification (the Mongoose schema). */
  datatype Record = Record(
    eventId: string,
    userId: Json,
    eventType: Json,
    payload: Json,
    timestamp: Stamp,
    status: string,
    message: string,
    processedAt: int)

  /** `connected` is the module-level cached connection; `store` the
      notification collection, indexed by the unique `eventId`. */
  datatype State = State(connected: bool, store: map<string, Record>)

  /** The collaborators of one invocation:
      - `decode`: base64 decoding followed by `JSON.parse`, `None` when parsing throws;
      - `connects`: whether `mongoose.connect` succeeds if it is attempted;
      - `queries`: whether `findOne` answers;
      - `saves`: whether `save` of a given record succeeds (network, casts);
      - `now`: the clock. */
  datatype Env = Env(
    decode: string -> Option<Json>,
    connects: bool,
    queries: bool,
    saves: Record -> bool,
    now: int)

  datatype TypeErrorSite =
    | DestructureNullish   // `const {userId, ...} = null`
    | ObjectToPrimitive    // `${userId}` on an object whose `toString` is a plain field
    | ReadOfNullish        // `payload.timestamp` with no payload

  datatype Failure =
    | InvalidMessage
    | TypeError(site: TypeErrorSite)
    | ConnectionFailed
    | LookupFailed
    | MissingEventId
    | DuplicateKey
    | SaveFailed

  /** The invocation either resolves (the message is acknowledged) or throws
      (Pub/Sub redelivers it later). */
  datatype Outcome = Ok | Err(failure: Failure)

  datatype Step = Step(state: State, outcome: Outcome)

  datatype SaveResult = Saved(store: map<string, Record>) | Rejected(failure: Failure)

  /** The decoded message. Absent or empty `event.data` is read as "{}",
      which `JSON.parse` turns into the empty object. */
  function DecodeMessage(data: Option<string>, decode: string -> Option<Json>): Option<Json> {
    if data.Some? && Truthy(Str(data.value)) then decode(data.value) else Some(Obj(map[]))
  }

  /** `connectDB`: a cached connection is reused and cannot fail; otherwise a
      connection is attempted and the cache is filled only on success.
      The result is the new cache flag, which is also whether the call succeeded. */
  function ConnectDB(connected: bool, connects: bool): (nowConnected: bool)
    ensures connected ==> nowConnected
    ensures nowConnected <==> connected || connects
  {
    if connected then true else connects
  }

  /** Once `connectDB` has succeeded, later calls are no-ops that succeed
      whatever a fresh connection attempt would do. */
  lemma ConnectionIsCached(connected: bool, first: bool, later: bool)
    requires ConnectDB(connected, first)
    ensures ConnectDB(ConnectDB(connected, first), later)
  {
  }

  /** The simulated push notification. */
  function NotificationMessage(userId: Json, eventType: Json): (r: Option<string>)
    ensures userId.Str? && eventType.Str? ==>
      r == Some("Simulating push notification for user [" + userId.s + "] about event ["
                + eventType.s + "]")
    ensures r.Some? <==> Stringify(userId).Some? && Stringify(eventType).Some?
    ensures r.Some? ==>
      r.value == "Simulating push notification for user [" + Stringify(userId).value
                 + "] about event [" + Stringify(eventType).value + "]"
  {
    match (Stringify(userId), Stringify(eventType))
    case (Some(u), Some(e)) =>
      Some("Simulating push notification for user [" + u + "] about event [" + e + "]")
    case _ => None
  }

  /** `s` has no closing bracket, so a "]" after it marks where it ends. */
  predicate Unbracketed(s: string) {
    forall i :: 0 <= i < |s| ==> s[i] != ']'
  }

  lemma IntToStringUnbracketed(n: int)
    ensures Unbracketed(IntToString(n))
  {
    var s := IntToString(n);
    forall i | 0 <= i < |s|
      ensures s[i] != ']'
    {
      if n >= 0 {
        assert IsDigit(s[i]);
      } else if i > 0 {
        assert IsDigit(s[1..][i - 1]);
      }
    }
  }

  /** The text of `s` before its first "]". */
  function UpToBracket(s: string): string {
    if |s| == 0 || s[0] == ']' then "" else [s[0]] + UpToBracket(s[1..])
  }

  /** A bracketed part is recovered from `part + suffix` when `suffix`
      starts with "]". */
  lemma {:induction false} UpToBracketRecovers(part: string, suffix: string)
    requires Unbracketed(part)
    requires |suffix| > 0 && suffix[0] == ']'
    ensures UpToBracket(part + suffix) == part
  {
    if |part| > 0 {
      assert (part + suffix)[1..] == part[1..] + suffix;
      UpToBracketRecovers(part[1..], suffix);
    }
  }

  /** The notification text with its fixed opening removed starts with the
      user id, followed by the part that opens with "]". */
  lemma MessageAfterPrefix(u: string, e: string)
    ensures var prefix := "Simulating push notification for user [";
      (prefix + u + "] about event [" + e + "]")[|prefix|..] == u + ("] about event [" + e + "]")
  {
  }

  /** Two numeric user ids with the same event type give different
      notification texts: the id is read back from the text. */
  lemma NumericUserIdsGiveDistinctMessages(m: int, n: int, eventType: Json)
    requires NotificationMessage(Num(m), eventType).Some?
    requires NotificationMessage(Num(m), eventType) == NotificationMessage(Num(n), eventType)
    ensures m == n
  {
    var prefix := "Simulating push notification for user [";
    var e := Stringify(eventType).value;
    var suffix := "] about event [" + e + "]";
    var sm, sn := IntToString(m), IntToString(n);
    var text := NotificationMessage(Num(m), eventType).value;
    assert text == prefix + sm + "] about event [" + e + "]";
    assert text == prefix + sn + "] about event [" + e + "]";
    MessageAfterPrefix(sm, e);
    MessageAfterPrefix(sn, e);
    IntToStringUnbracketed(m);
    IntToStringUnbracketed(n);
    UpToBracketRecovers(sm, suffix);
    UpToBracketRecovers(sn, suffix);
    IntToStringInjective(m, n);
  }

  /** The record built for a first delivery; the payload is not null or
      undefined, since `payload.timestamp` is read. */
  function BuildRecord(eventId: string, userId: Json, eventType: Json, payload: Json,
                       message: string, now: int): (r: Record)
    requires !Nullish(payload)
    ensures r.eventId == eventId && r.status == ProcessedText && r.message == message
    ensures r.userId == userId && r.eventType == eventType && r.payload == payload
    ensures r.processedAt == now
    ensures Truthy(Get(payload, Timestamp)) ==> r.timestamp == FromPayload(Get(payload, Timestamp))
    ensures !Truthy(Get(payload, Timestamp)) ==> r.timestamp == Clock(now)
  {
    var ts := Get(payload, Timestamp);
    Record(eventId, userId, eventType, payload,
           if Truthy(ts) then FromPayload(ts) else Clock(now),
           ProcessedText, message, now)
  }

  /** `record.save()` against the collection: the required `eventId` must be
      a non-empty string, the unique index refuses a second record with the
      same `eventId`, and the write itself may fail. */
  function Save(store: map<string, Record>, record: Record, saves: Record -> bool): (r: SaveResult)
    ensures r.Saved? <==> record.eventId != "" && record.eventId !in store && saves(record)
    ensures r.Saved? ==> r.store == store[record.eventId := record]
    ensures r.Saved? ==> |r.store| == |store| + 1
  {
    if record.eventId == "" then Rejected(MissingEventId)
    else if record.eventId in store then Rejected(DuplicateKey)
    else if !saves(record) then Rejected(SaveFailed)
    else Saved(store[record.eventId := record])
  }

  /** The part of the handler that runs once the message decoded to an
      object-like value and the connection is up. */
  function Persist(store: map<string, Record>, eventData: Json, eventId: string, env: Env): (r: SaveResult)
    requires !Nullish(eventData)
    ensures r.Saved? ==> eventId !in store && eventId in r.store
    ensures r.Saved? ==> r.store == store[eventId := r.store[eventId]]
  {
    var userId := Get(eventData, UserId);
    var eventType := Get(eventData, EventType);
    var payload := Get(eventData, Payload);
    match NotificationMessage(userId, eventType)
    case None => Rejected(TypeError(ObjectToPrimitive))
    case Some(message) =>
      if Nullish(payload) then Rejected(TypeError(ReadOfNullish))
      else Save(store, BuildRecord(eventId, userId, eventType, payload, message, env.now), env.saves)
  }

  /** One invocation of the consumer for a message with `data` and
      Pub/Sub event id `eventId`. */
  function Process(st: State, data: Option<string>, eventId: string, env: Env): (step: Step)
    // A failed call leaves the collection as it was.
    ensures step.outcome.Err? ==> step.state.store == st.store
    // Nothing else changes: at most the delivered id is added, nothing is overwritten.
    ensures step.state.store == st.store
         || (eventId !in st.store && eventId in step.state.store
             && step.state.store == st.store[eventId := step.state.store[eventId]])
    // A cached connection stays cached; a new one is kept once made.
    ensures st.connected ==> step.state.connected
    ensures step.state.connected ==> st.connected || env.connects
    // The connection is made before the lookup and the save, so it stays
    // cached even when one of them then throws.
    ensures (&& DecodeMessage(data, env.decode).Some?
             && !Nullish(DecodeMessage(data, env.decode).value)
             && (st.connected || env.connects))
            ==> step.state.connected
    // The unique index is never what fails: the lookup comes first.
    ensures step.outcome != Err(DuplicateKey)
  {
    match DecodeMessage(data, env.decode)
    case None => Step(st, Err(InvalidMessage))
    case Some(eventData) =>
      if Nullish(eventData) then Step(st, Err(TypeError(DestructureNullish)))
      else if !ConnectDB(st.connected, env.connects) then Step(st, Err(ConnectionFailed))
      else
        var st1 := st.(connected := true);
        if !env.queries then Step(st1, Err(LookupFailed))
        else if eventId in st.store then Step(st1, Ok)
        else
          match Persist(st.store, eventData, eventId, env)
          case Rejected(f) => Step(st1, Err(f))
          case Saved(store) => Step(st1.(store := store), Ok)
  }

  // ---------------------------------------------------------------------
  // The per-event-id state machine: unseen -> processed.
  // ---------------------------------------------------------------------

  /** Per event id: no record yet, or a record with status `ProcessedText`. */
  datatype Status = Unseen | Processed

  function StatusOf(st: State, eventId: string): Status {
    if eventId in st.store then Processed else Unseen
  }

  /** The only transition an invocation makes is unseen -> processed for its
      own event id; processed is terminal and its record is never rewritten. */
  lemma StatusTransitions(st: State, data: Option<string>, eventId: string, env: Env, other: string)
    ensures var st' := Process(st, data, eventId, env).state;
      && (StatusOf(st, other) == Processed ==>
            StatusOf(st', other) == Processed && st'.store[other] == st.store[other])
      && (other != eventId ==> StatusOf(st', other) == StatusOf(st, other))
  {
  }

  /** Collection invariant: each record sits under its own non-empty
      `eventId`, and every record is processed. */
  ghost predicate WellFormed(store: map<string, Record>) {
    forall k :: k in store ==> store[k].eventId == k && k != "" && store[k].status == ProcessedText
  }

  /** The records whose `eventId` is `eventId`. */
  function RecordsFor(store: map<string, Record>, eventId: string): set<string> {
    set k | k in store && store[k].eventId == eventId
  }

  /** In a well-formed collection an event id has at most one record, and
      exactly one once it is processed. */
  lemma RecordsForAtMostOne(store: map<string, Record>, eventId: string)
    requires WellFormed(store)
    ensures eventId in store ==> RecordsFor(store, eventId) == {eventId}
    ensures eventId !in store ==> RecordsFor(store, eventId) == {}
    ensures |RecordsFor(store, eventId)| <= 1
  {
    if eventId in store {
      assert eventId in RecordsFor(store, eventId);
    }
  }

  lemma ProcessPreservesWellFormed(st: State, data: Option<string>, eventId: string, env: Env)
    requires WellFormed(st.store)
    ensures WellFormed(Process(st, data, eventId, env).state.store)
  {
  }

  // ---------------------------------------------------------------------
  // Behaviour of one invocation, case by case.
  // ---------------------------------------------------------------------

  /** A message that does not decode makes the call throw before anything
      else happens: no connection, no write. */
  lemma DecodeFailureChangesNothing(st: State, data: Option<string>, eventId: string, env: Env)
    requires DecodeMessage(data, env.decode).None?
    ensures Process(st, data, eventId, env) == Step(st, Err(InvalidMessage))
  {
  }

  /** A failed connection makes the call throw, writes nothing and leaves
      the cache empty; a cached connection is never the cause of a failure. */
  lemma ConnectionFailure(st: State, data: Option<string>, eventId: string, env: Env)
    ensures var step := Process(st, data, eventId, env);
      && (step.outcome == Err(ConnectionFailed) <==>
            && DecodeMessage(data, env.decode).Some?
            && !Nullish(DecodeMessage(data, env.decode).value)
            && !st.connected && !env.connects)
      && (step.outcome == Err(ConnectionFailed) ==> step.state == st)
  {
  }

  /** Idempotency short-circuit: for an event id already stored the
      collection is never changed, and the call succeeds exactly when the
      message decodes to a non-null value and the lookup can be made. */
  lemma AlreadyProcessedIsSkipped(st: State, data: Option<string>, eventId: string, env: Env)
    requires eventId in st.store
    ensures var step := Process(st, data, eventId, env);
      && step.state.store == st.store
      && (step.outcome == Ok <==>
            && DecodeMessage(data, env.decode).Some?
            && !Nullish(DecodeMessage(data, env.decode).value)
            && (st.connected || env.connects)
            && env.queries)
  {
  }

  /** A successful first delivery stores exactly one new record, under
      `eventId`, processed, carrying the decoded fields and the simulated
      notification text; every other key keeps its record. */
  lemma FirstDeliveryStoresRecord(st: State, data: Option<string>, eventId: string, env: Env)
    requires eventId !in st.store
    requires Process(st, data, eventId, env).outcome == Ok
    ensures var st' := Process(st, data, eventId, env).state;
      var eventData := DecodeMessage(data, env.decode).value;
      && !Nullish(eventData)
      && st'.connected
      && st'.store.Keys == st.store.Keys + {eventId}
      && (forall k :: k in st.store ==> st'.store[k] == st.store[k])
      && var r := st'.store[eventId];
      && r.eventId == eventId
      && r.status == ProcessedText
      && r.userId == Get(eventData, UserId)
      && r.eventType == Get(eventData, EventType)
      && r.payload == Get(eventData, Payload)
      && Some(r.message) == NotificationMessage(r.userId, r.eventType)
  {
  }

  /** With string identifiers the stored message is exactly the simulated
      push notification text. */
  lemma StoredMessageText(st: State, data: Option<string>, eventId: string, env: Env)
    requires eventId !in st.store
    requires Process(st, data, eventId, env).outcome == Ok
    requires Get(DecodeMessage(data, env.decode).value, UserId).Str?
    requires Get(DecodeMessage(data, env.decode).value, EventType).Str?
    ensures var r := Process(st, data, eventId, env).state.store[eventId];
      r.message == "Simulating push notification for user [" + r.userId.s
                   + "] about event [" + r.eventType.s + "]"
  {
    FirstDeliveryStoresRecord(st, data, eventId, env);
  }

  /** A first delivery succeeds exactly when every step does. */
  lemma FirstDeliverySucceedsWhen(st: State, data: Option<string>, eventId: string, env: Env)
    requires eventId !in st.store
    ensures Process(st, data, eventId, env).outcome == Ok <==>
      && DecodeMessage(data, env.decode).Some?
      && var eventData := DecodeMessage(data, env.decode).value;
      && !Nullish(eventData)
      && (st.connected || env.connects)
      && env.queries
      && Persist(st.store, eventData, eventId, env).Saved?
  {
  }

  /** Absent (or empty) `event.data` decodes to `{}`, which has no payload:
      for an unseen event id the call always throws and writes nothing. */
  lemma AbsentDataNeverWrites(st: State, data: Option<string>, eventId: string, env: Env)
    requires data.None? || data == Some("")
    requires eventId !in st.store
    ensures var step := Process(st, data, eventId, env);
      step.outcome.Err? && step.state.store == st.store
  {
    var empty := Obj(map[]);
    assert Get(empty, Payload) == Absent;
    assert Get(empty, UserId) == Absent && Get(empty, EventType) == Absent;
  }

  /** A message whose payload has a truthy `timestamp` keeps it; otherwise
      the record is stamped with the clock. */
  lemma RecordTimestamp(st: State, data: Option<string>, eventId: string, env: Env)
    requires eventId !in st.store
    requires Process(st, data, eventId, env).outcome == Ok
    ensures var r := Process(st, data, eventId, env).state.store[eventId];
      var ts := Get(r.payload, Timestamp);
      && (Truthy(ts) ==> r.timestamp == FromPayload(ts))
      && (!Truthy(ts) ==> r.timestamp == Clock(env.now))
  {
    FirstDeliveryStoresRecord(st, data, eventId, env);
  }

  /** Redelivery: once a delivery has succeeded, delivering the same message
      under the same id again succeeds without writing, whatever the
      connection attempt or the save would now do. */
  lemma RedeliveryIsNoOp(st: State, data: Option<string>, eventId: string, env1: Env, env2: Env)
    requires Process(st, data, eventId, env1).outcome == Ok
    requires env2.decode == env1.decode && env2.queries
    ensures var st1 := Process(st, data, eventId, env1).state;
      var step2 := Process(st1, data, eventId, env2);
      && eventId in st1.store
      && step2 == Step(st1, Ok)
  {
  }

  /** Processing the same delivery twice leaves exactly one record for its
      event id, and that record is processed. */
  lemma TwiceLeavesOneRecord(st: State, data: Option<string>, eventId: string, env1: Env, env2: Env)
    requires WellFormed(st.store)
    requires Process(st, data, eventId, env1).outcome == Ok
    ensures var st2 := Process(Process(st, data, eventId, env1).state, data, eventId, env2).state;
      && RecordsFor(st2.store, eventId) == {eventId}
      && st2.store[eventId].status == ProcessedText
  {
    var st1 := Process(st, data, eventId, env1).state;
    if eventId !in st.store {
      FirstDeliveryStoresRecord(st, data, eventId, env1);
    }
    AlreadyProcessedIsSkipped(st1, data, eventId, env2);
    var st2 := Process(st1, data, eventId, env2).state;
    ProcessPreservesWellFormed(st, data, eventId, env1);
    ProcessPreservesWellFormed(st1, data, eventId, env2);
    RecordsForAtMostOne(st2.store, eventId);
  }
}

=== FILE: event_routes.dfy ===
/** The `POST /activity` route of the publisher: validate the untyped body,
    publish `{userId, eventType, payload}` once to the activity topic, and
    answer 400, 202 or 500. The Pub/Sub client is a parameter `publish`. */
module EventRoutes {
  import opened JsValue

  /** Topic used when no topic is configured. */
  const DefaultTopic: string := "user-activity-events"

  const PublishError: string := "Internal Server Error. Could not publish event."
  const AcceptedMessage: string := "Event received and queued for processing."

  /** The event handed to the channel. */
  datatype Event = Event(userId: string, eventType: string, payload: map<string, Json>)

  datatype PublishCall = PublishCall(topic: string, event: Event)

  /** What the Pub/Sub client reports: a message id, or a thrown error. */
  datatype PublishResult = Published(messageId: string) | PublishFailed

  datatype Body = ErrorBody(error: string) | AcceptedBody(status: string, message: string)

  datatype Response = Response(code: int, body: Body)

  /** The reply together with every publish call the request made, in order. */
  datatype Exchange = Exchange(response: Response, published: seq<PublishCall>)

  datatype Field = UserIdField | EventTypeField | PayloadField

  /** The topic name: an unset or empty configured value falls back to the default. */
  function TopicName(configured: Option<string>): (topic: string)
    ensures topic != ""
    ensures configured.Some? && configured.value != "" ==> topic == configured.value
    ensures configured.None? || configured.value == "" ==> topic == DefaultTopic
  {
    if configured.Some? && Truthy(Str(configured.value)) then configured.value else DefaultTopic
  }

  /** The guard `!v || typeof v !== "string"`: holds exactly when `v` is not a
      non-empty string. */
  function NotAString(v: Json): (rejected: bool)
    ensures rejected <==> !(v.Str? && v.s != "")
  {
    !Truthy(v) || TypeOf(v) != "string"
  }

  /** The guard `!v || typeof v !== "object" || Array.isArray(v)`: holds
      exactly when `v` is not a (possibly empty) JSON object. */
  function NotAnObject(v: Json): (rejected: bool)
    ensures rejected <==> !v.Obj?
  {
    !Truthy(v) || TypeOf(v) != "object" || IsArray(v)
  }

  /** The body property a field is read from. */
  function FieldKey(f: Field): Key {
    match f
    case UserIdField => UserId
    case EventTypeField => EventType
    case PayloadField => Payload
  }

  function FieldName(f: Field): string {
    KeyName(FieldKey(f))
  }

  /** The 400 error text for a malformed field, e.g.
      "Invalid or missing userId. Must be a string." */
  function ErrorFor(f: Field): string {
    "Invalid or missing " + FieldName(f) + ". Must be "
      + (if f == PayloadField then "an object" else "a string") + "."
  }

  /** The route handler. `configured` is the configured topic (if any) and
      `publish` the outcome the Pub/Sub client gives for a topic and event.
      The body is never `null` or `undefined`: the JSON body parser hands the
      route an object or an array. */
  function HandleActivity(configured: Option<string>, body: Json,
                          publish: (string, Event) -> PublishResult): (x: Exchange)
    requires !Nullish(body)
    ensures x.response.code in {202, 400, 500}
    ensures x.response.code == 400 <==> x.published == []
    ensures |x.published| <= 1
    ensures x.response.code == 400 ==> x.response.body.ErrorBody?
    ensures x.response.code == 500 ==> x.response.body == ErrorBody(PublishError)
    ensures x.response.code == 202 ==> x.response.body == AcceptedBody("accepted", AcceptedMessage)
    ensures forall c :: c in x.published ==> c.topic == TopicName(configured)
  {
    var userId := Get(body, UserId);
    var eventType := Get(body, EventType);
    var payload := Get(body, Payload);
    if NotAString(userId) then
      Exchange(Response(400, ErrorBody(ErrorFor(UserIdField))), [])
    else if NotAString(eventType) then
      Exchange(Response(400, ErrorBody(ErrorFor(EventTypeField))), [])
    else if NotAnObject(payload) then
      Exchange(Response(400, ErrorBody(ErrorFor(PayloadField))), [])
    else
      var call := PublishCall(TopicName(configured), Event(userId.s, eventType.s, payload.fields));
      match publish(call.topic, call.event)
      case Published(_) => Exchange(Response(202, AcceptedBody("accepted", AcceptedMessage)), [call])
      case PublishFailed => Exchange(Response(500, ErrorBody(PublishError)), [call])
  }

  // ---------------------------------------------------------------------
  // Reference definition: the shape an event body must have.
  // ---------------------------------------------------------------------

  predicate NonEmptyString(v: Json) { v.Str? && v.s != "" }

  /** The fields of `body` that are malformed, in the order userId,
      eventType, payload. */
  function Problems(body: Json): seq<Field>
    requires !Nullish(body)
  {
    (if NonEmptyString(Get(body, UserId)) then [] else [UserIdField])
    + (if NonEmptyString(Get(body, EventType)) then [] else [EventTypeField])
    + (if Get(body, Payload).Obj? then [] else [PayloadField])
  }

  /** The event a well-formed body describes. */
  function EventOf(body: Json): Event
    requires !Nullish(body) && Problems(body) == []
  {
    Event(Get(body, UserId).s, Get(body, EventType).s, Get(body, Payload).fields)
  }

  /** The body a client sends for an event. */
  function EventToJson(e: Event): Json {
    Obj(map["userId" := Str(e.userId), "eventType" := Str(e.eventType), "payload" := Obj(e.payload)])
  }

  /** Case analysis of the handler against the reference definition: a
      malformed body is answered with the error for its FIRST malformed
      field and nothing is published; a well-formed body is published
      exactly once, and the answer follows the publish outcome. */
  lemma HandleActivityMeaning(configured: Option<string>, body: Json,
                              publish: (string, Event) -> PublishResult)
    requires !Nullish(body)
    ensures var x := HandleActivity(configured, body, publish);
      && (Problems(body) != [] ==>
            x.response == Response(400, ErrorBody(ErrorFor(Problems(body)[0]))) && x.published == [])
      && (Problems(body) == [] ==>
            var call := PublishCall(TopicName(configured), EventOf(body));
            && x.published == [call]
            && (publish(call.topic, call.event).Published? ==>
                  x.response == Response(202, AcceptedBody("accepted", AcceptedMessage)))
            && (publish(call.topic, call.event).PublishFailed? ==>
                  x.response == Response(500, ErrorBody(PublishError))))
  {
  }

  /** `word` occurs in `text` starting at index `i`. */
  ghost predicate OccursAt(text: string, word: string, i: int) {
    0 <= i && i + |word| <= |text| && text[i..i + |word|] == word
  }

  /** Substring test. */
  ghost predicate Mentions(text: string, word: string) {
    exists i :: OccursAt(text, word, i)
  }

  /** A message of the form `prefix + word + suffix` mentions `word`. */
  lemma MentionsMiddle(prefix: string, word: string, suffix: string)
    ensures Mentions(prefix + word + suffix, word)
  {
    var text := prefix + word + suffix;
    assert text[|prefix|..|prefix| + |word|] == word;
    assert OccursAt(text, word, |prefix|);
  }

  /** Every validation error names the field it is about. */
  lemma ErrorMentionsField(f: Field)
    ensures Mentions(ErrorFor(f), FieldName(f))
  {
    var kind := if f == PayloadField then "an object" else "a string";
    assert ErrorFor(f) == "Invalid or missing " + FieldName(f) + (". Must be " + kind + ".");
    MentionsMiddle("Invalid or missing ", FieldName(f), ". Must be " + kind + ".");
  }

  /** A missing, falsy or non-string `userId` (the empty string included) is
      rejected first, with an error naming `userId`, and nothing is published. */
  lemma UserIdRejected(configured: Option<string>, body: Json,
                       publish: (string, Event) -> PublishResult)
    requires !Nullish(body) && !NonEmptyString(Get(body, UserId))
    ensures var x := HandleActivity(configured, body, publish);
      && x.response == Response(400, ErrorBody(ErrorFor(UserIdField)))
      && Mentions(x.response.body.error, "userId")
      && x.published == []
  {
    ErrorMentionsField(UserIdField);
  }

  /** `eventType` is looked at only once `userId` passes. */
  lemma EventTypeRejected(configured: Option<string>, body: Json,
                          publish: (string, Event) -> PublishResult)
    requires !Nullish(body) && NonEmptyString(Get(body, UserId)) && !NonEmptyString(Get(body, EventType))
    ensures var x := HandleActivity(configured, body, publish);
      && x.response == Response(400, ErrorBody(ErrorFor(EventTypeField)))
      && Mentions(x.response.body.error, "eventType")
      && x.published == []
  {
    ErrorMentionsField(EventTypeField);
  }

  /** A missing, null, primitive or array payload is rejected once both
      identifiers pass; an object payload, even `{}`, is not. */
  lemma PayloadRejected(configured: Option<string>, body: Json,
                        publish: (string, Event) -> PublishResult)
    requires !Nullish(body) && NonEmptyString(Get(body, UserId)) && NonEmptyString(Get(body, EventType))
    ensures var x := HandleActivity(configured, body, publish);
      && (x.response.code == 400 <==> !Get(body, Payload).Obj?)
      && (!Get(body, Payload).Obj? ==>
            && x.response == Response(400, ErrorBody(ErrorFor(PayloadField)))
            && Mentions(x.response.body.error, "payload")
            && x.published == [])
  {
    ErrorMentionsField(PayloadField);
  }

  /** The handler's reads of a client's body give back the event's fields. */
  lemma EventToJsonFields(e: Event)
    ensures Get(EventToJson(e), UserId) == Str(e.userId)
    ensures Get(EventToJson(e), EventType) == Str(e.eventType)
    ensures Get(EventToJson(e), Payload) == Obj(e.payload)
  {
    var m1 := map["userId" := Str(e.userId)];
    var m2 := m1["eventType" := Str(e.eventType)];
    assert EventToJson(e) == Obj(m2["payload" := Obj(e.payload)]);
    ReadAfterWrite(m2, Payload, Obj(e.payload), UserId);
    ReadAfterWrite(m2, Payload, Obj(e.payload), EventType);
    ReadAfterWrite(m1, EventType, Str(e.eventType), UserId);
    ReadAfterWrite(map[], UserId, Str(e.userId), UserId);
  }

  /** A client's body for an event with non-empty identifiers passes
      validation and is published exactly as sent: the handler reads back
      what `EventToJson` wrote. An event with an empty identifier is refused. */
  lemma EventToJsonRoundTrip(configured: Option<string>, e: Event,
                             publish: (string, Event) -> PublishResult)
    ensures var x := HandleActivity(configured, EventToJson(e), publish);
      && (e.userId != "" && e.eventType != "" ==>
            x.published == [PublishCall(TopicName(configured), e)])
      && (e.userId == "" || e.eventType == "" ==> x.response.code == 400)
  {
    EventToJsonFields(e);
    HandleActivityMeaning(configured, EventToJson(e), publish);
  }

  /** A publish failure is answered with the fixed 500 message; the handler
      does not retry. */
  lemma PublishFailureIs500(configured: Option<string>, body: Json,
                            publish: (string, Event) -> PublishResult)
    requires !Nullish(body) && Problems(body) == []
    requires publish(TopicName(configured), EventOf(body)).PublishFailed?
    ensures var x := HandleActivity(configured, body, publish);
      x.response == Response(500, ErrorBody(PublishError)) && |x.published| == 1
  {
    HandleActivityMeaning(configured, body, publish);
  }

  /** The request `{userId: "user_123", eventType: "click", payload: {page: "home"}}`
      with the default topic and a working channel. */
  lemma AcceptedExample(publish: (string, Event) -> PublishResult)
    requires forall t, e :: publish(t, e).Published?
    ensures var body := Obj(map["userId" := Str("user_123"), "eventType" := Str("click"),
                                "payload" := Obj(map["page" := Str("home")])]);
      var x := HandleActivity(None, body, publish);
      && x.response.code == 202
      && x.response.body.status == "accepted"
      && x.published == [PublishCall("user-activity-events",
                                     Event("user_123", "click", map["page" := Str("home")]))]
  {
    EventToJsonFields(Event("user_123", "click", map["page" := Str("home")]));
  }
}

=== FILE: js_value.dfy ===
/** JSON values as JavaScript code sees them once a body or a message has been
    parsed, together with the handful of JavaScript coercions the pipeline
    relies on: truthiness, `typeof`, property reads and the string conversion
    performed by a template literal. */
module JsValue {

  datatype Option<+T> = None | Some(value: T)

  /** A parsed JSON value, or `Absent` for a property that is not there
      (JavaScript's `undefined`). Numbers are modelled as integers. */
  datatype Json =
    | Absent
    | Null
    | Bool(b: bool)
    | Num(n: int)
    | Str(s: string)
    | Arr(elems: seq<Json>)
    | Obj(fields: map<string, Json>)

  /** The property names the pipeline reads. None of them is a property of a
      primitive, of an array or of `Object.prototype`, so a read of one of them
      only ever finds an object's own field. */
  datatype Key = UserId | EventType | Payload | Timestamp

  function KeyName(k: Key): string {
    match k
    case UserId => "userId"
    case EventType => "eventType"
    case Payload => "payload"
    case Timestamp => "timestamp"
  }

  /** JavaScript truthiness. */
  predicate Truthy(v: Json) {
    match v
    case Absent => false
    case Null => false
    case Bool(b) => b
    case Num(n) => n != 0
    case Str(s) => s != ""
    case Arr(_) => true
    case Obj(_) => true
  }

  /** The `typeof` operator: `null` and arrays are both "object". */
  function TypeOf(v: Json): string {
    match v
    case Absent => "undefined"
    case Null => "object"
    case Bool(_) => "boolean"
    case Num(_) => "number"
    case Str(_) => "string"
    case Arr(_) => "object"
    case Obj(_) => "object"
  }

  /** `Array.isArray`. */
  predicate IsArray(v: Json) {
    v.Arr?
  }

  /** Values on which a property read or a destructuring throws a TypeError. */
  predicate Nullish(v: Json) {
    v.Absent? || v.Null?
  }

  /** The property read `v.k` (also `const {k} = v`), defined when `v` is
      neither `null` nor `undefined`. */
  function Get(v: Json, k: Key): Json
    requires !Nullish(v)
  {
    if v.Obj? && KeyName(k) in v.fields then v.fields[KeyName(k)] else Absent
  }

  /** Reading a field after writing it: the field written is read back, and
      every other field the pipeline reads is unaffected by the write. */
  lemma ReadAfterWrite(m: map<string, Json>, k: Key, x: Json, k': Key)
    ensures Get(Obj(m[KeyName(k) := x]), k) == x
    ensures k' != k ==> Get(Obj(m[KeyName(k) := x]), k') == Get(Obj(m), k')
  {
  }

  // ---------------------------------------------------------------------
  // Decimal rendering of integers, as `String(n)` does for safe integers.
  // ---------------------------------------------------------------------

  predicate IsDigit(c: char) {
    '0' <= c <= '9'
  }

  predicate AllDigits(s: string) {
    forall i :: 0 <= i < |s| ==> IsDigit(s[i])
  }

  function DigitChar(d: nat): (c: char)
    requires d < 10
    ensures IsDigit(c)
    ensures c as int - '0' as int == d
  {
    ('0' as int + d) as char
  }

  function DigitValue(c: char): (d: nat)
    requires IsDigit(c)
    ensures d < 10
  {
    c as int - '0' as int
  }

  /** Canonical decimal digits of `n`: never empty, no leading zero. */
  function NatToString(n: nat): (s: string)
    ensures |s| >= 1 && AllDigits(s)
    ensures |s| > 1 ==> s[0] != '0'
    ensures n < 10 <==> |s| == 1
  {
    if n < 10 then [DigitChar(n)] else NatToString(n / 10) + [DigitChar(n % 10)]
  }

  /** The value of a string of decimal digits (the reader's side). */
  function DigitsValue(s: string): nat
    requires AllDigits(s)
  {
    if |s| == 0 then 0 else DigitsValue(s[..|s| - 1]) * 10 + DigitValue(s[|s| - 1])
  }

  lemma {:induction false} NatToStringRoundTrip(n: nat)
    ensures DigitsValue(NatToString(n)) == n
  {
    if n >= 10 {
      var s := NatToString(n);
      var prefix := NatToString(n / 10);
      assert s[..|s| - 1] == prefix;
      NatToStringRoundTrip(n / 10);
      assert DigitValue(s[|s| - 1]) == n % 10;
    }
  }

  function IntToString(n: int): (s: string)
    ensures |s| >= 1
    ensures n < 0 <==> s[0] == '-'
    ensures n >= 0 ==> AllDigits(s)
    ensures n < 0 ==> AllDigits(s[1..])
    ensures n < 0 ==> |s| > 1 && s[1] != '0'
    ensures n >= 0 && |s| > 1 ==> s[0] != '0'
  {
    if n < 0 then "-" + NatToString(-n) else NatToString(n)
  }

  /** Reads back what `IntToString` wrote. */
  function ParseInt(s: string): Option<int> {
    if |s| > 0 && s[0] == '-' then
      if |s| > 1 && AllDigits(s[1..]) then Some(0 - DigitsValue(s[1..]) as int) else None
    else if |s| > 0 && AllDigits(s) then Some(DigitsValue(s))
    else None
  }

  lemma IntToStringRoundTrip(n: int)
    ensures ParseInt(IntToString(n)) == Some(n)
  {
    var s := IntToString(n);
    if n < 0 {
      var digits := NatToString(-n);
      assert s == "-" + digits;
      assert s[1..] == digits;
      NatToStringRoundTrip(-n);
      assert ParseInt(s) == Some(0 - DigitsValue(digits) as int);
    } else {
      assert s == NatToString(n);
      assert IsDigit(s[0]);
      NatToStringRoundTrip(n);
      assert ParseInt(s) == Some(DigitsValue(s) as int);
    }
  }

  lemma IntToStringInjective(m: int, n: int)
    requires IntToString(m) == IntToString(n)
    ensures m == n
  {
    IntToStringRoundTrip(m);
    IntToStringRoundTrip(n);
  }

  // ---------------------------------------------------------------------
  // String conversion of a template literal `${v}`.
  // ---------------------------------------------------------------------

  /** The string a template literal makes of `v`, or `None` when the
      conversion throws a TypeError. An object whose own field `toString`
      hides `Object.prototype.toString` has no usable conversion, because no
      JSON value is callable; arrays join their elements with ",". */
  function Stringify(v: Json): (r: Option<string>)
    ensures v.Str? ==> r == Some(v.s)
    ensures v.Num? ==> r == Some(IntToString(v.n)) && ParseInt(r.value) == Some(v.n)
    ensures v.Absent? ==> r == Some("undefined")
    ensures v.Null? ==> r == Some("null")
    ensures v.Bool? ==> r == Some(if v.b then "true" else "false")
    ensures v.Obj? ==> (r.None? <==> "toString" in v.fields)
    ensures v.Obj? && "toString" !in v.fields ==> r == Some("[object Object]")
    ensures !v.Obj? && !v.Arr? ==> r.Some?
  {
    match v
    case Absent => Some("undefined")
    case Null => Some("null")
    case Bool(b) => Some(if b then "true" else "false")
    case Num(n) => IntToStringRoundTrip(n); Some(IntToString(n))
    case Str(s) => Some(s)
    case Arr(xs) => Join(xs)
    case Obj(m) => if "toString" in m then None else Some("[object Object]")
  }

  /** `Array.prototype.join(",")`: `null` and `undefined` elements become "". */
  function Join(xs: seq<Json>): Option<string> {
    if |xs| == 0 then Some("")
    else
      var last := if Nullish(xs[|xs| - 1]) then Some("") else Stringify(xs[|xs| - 1]);
      if |xs| == 1 then last
      else
        match Join(xs[..|xs| - 1])
        case None => None
        case Some(front) =>
          match last
          case None => None
          case Some(l) => Some(front + "," + l)
  }
}

=== FILE: pipeline.dfy ===
/** The two stages together: what the publisher hands the channel, and what
    the consumer makes of a stream of (re)deliveries. */
module Pipeline {
  import opened JsValue
  import opened EventRoutes
  import opened ActivityProcessor

  /** One delivery attempt: the message data, its Pub/Sub event id, and how
      the collaborators behave during that attempt. */
  datatype Delivery = Delivery(data: Option<string>, eventId: string, env: Env)

  datatype Run = Run(state: State, outcomes: seq<Outcome>)

  /** The consumer invoked once per delivery, one at a time, in order. */
  function RunDeliveries(st: State, ds: seq<Delivery>): (r: Run)
    ensures |r.outcomes| == |ds|
    ensures forall k :: k in st.store ==> k in r.state.store && r.state.store[k] == st.store[k]
    ensures forall k :: k in r.state.store ==> k in st.store || exists i :: 0 <= i < |ds| && ds[i].eventId == k
    decreases |ds|
  {
    if |ds| == 0 then Run(st, [])
    else
      var step := Process(st, ds[0].data, ds[0].eventId, ds[0].env);
      var rest := RunDeliveries(step.state, ds[1..]);
      assert forall i :: 0 <= i < |ds| - 1 ==> ds[1..][i] == ds[i + 1];
      Run(rest.state, [step.outcome] + rest.outcomes)
  }

  /** Every delivery that was acknowledged has its record in the collection
      at the end of the run, whatever was delivered before or after it. */
  lemma {:induction false} AcknowledgedIsStored(st: State, ds: seq<Delivery>, i: int)
    requires 0 <= i < |ds|
    requires RunDeliveries(st, ds).outcomes[i] == Ok
    ensures ds[i].eventId in RunDeliveries(st, ds).state.store
    decreases |ds|
  {
    var step := Process(st, ds[0].data, ds[0].eventId, ds[0].env);
    if i == 0 {
      if ds[0].eventId !in st.store {
        assert step.state.store != st.store;
      }
    } else {
      AcknowledgedIsStored(step.state, ds[1..], i - 1);
    }
  }

  /** The collection stays well formed over any run. */
  lemma {:induction false} RunPreservesWellFormed(st: State, ds: seq<Delivery>)
    requires WellFormed(st.store)
    ensures WellFormed(RunDeliveries(st, ds).state.store)
    decreases |ds|
  {
    if |ds| > 0 {
      var step := Process(st, ds[0].data, ds[0].eventId, ds[0].env);
      ProcessPreservesWellFormed(st, ds[0].data, ds[0].eventId, ds[0].env);
      RunPreservesWellFormed(step.state, ds[1..]);
    }
  }

  /** However often a message is redelivered, and whichever attempts fail,
      its event id never ends with more than one record. */
  lemma AtMostOneRecordPerEventId(st: State, ds: seq<Delivery>, eventId: string)
    requires WellFormed(st.store)
    ensures |RecordsFor(RunDeliveries(st, ds).state.store, eventId)| <= 1
  {
    RunPreservesWellFormed(st, ds);
    RecordsForAtMostOne(RunDeliveries(st, ds).state.store, eventId);
  }

  /** At-least-once delivery with an idempotent consumer: as soon as one
      delivery of an event id is acknowledged, that id ends the run with
      exactly one record, whatever else was delivered or failed. */
  lemma ExactlyOnceEffect(st: State, ds: seq<Delivery>, i: int)
    requires WellFormed(st.store)
    requires 0 <= i < |ds| && RunDeliveries(st, ds).outcomes[i] == Ok
    ensures RecordsFor(RunDeliveries(st, ds).state.store, ds[i].eventId) == {ds[i].eventId}
  {
    RunPreservesWellFormed(st, ds);
    AcknowledgedIsStored(st, ds, i);
    RecordsForAtMostOne(RunDeliveries(st, ds).state.store, ds[i].eventId);
  }

  /** End to end: an event the publisher accepted and published, carried by
      the channel to a consumer whose decoder reads back what was published,
      is stored on its first successful delivery with the published fields. */
  lemma PublishedEventIsStored(configured: Option<string>, body: Json,
                               publish: (string, Event) -> PublishResult,
                               st: State, message: string, eventId: string, env: Env)
    requires !Nullish(body)
    requires HandleActivity(configured, body, publish).response.code == 202
    requires env.decode(message) == Some(EventToJson(HandleActivity(configured, body, publish).published[0].event))
    requires eventId !in st.store
    requires Process(st, Some(message), eventId, env).outcome == Ok
    ensures var e := HandleActivity(configured, body, publish).published[0].event;
      var step := Process(st, Some(message), eventId, env);
      && eventId in step.state.store
      && var rec := step.state.store[eventId];
      && rec.userId == Str(e.userId)
      && rec.eventType == Str(e.eventType)
      && rec.payload == Obj(e.payload)
      && rec.status == ProcessedText
      && rec.message == "Simulating push notification for user [" + e.userId
                        + "] about event [" + e.eventType + "]"
  {
    var e := HandleActivity(configured, body, publish).published[0].event;
    EventToJsonFields(e);
    FirstDeliveryStoresRecord(st, Some(message), eventId, env);
  }
}
